=== FILE: README.md ===
# Document-RAG core in Dafny

A model of the repository's own logic in a PDF question-answering service. The service extracts the text of an uploaded PDF, splits it into chunks, embeds the chunks in batches and builds a FAISS retriever from them. It caches that retriever under the uploaded file's name and answers questions against the cached retriever. Text splitting, embedding, vector search and answer synthesis are done by outside libraries and services. Here they are opaque types and function parameters. What remains, and what is modelled, is:

- **Page-text concatenation** (`extract_pdf_text`), in module `PdfText` (`pdf_text.dfy`). A document is the sequence of what each page's extraction returned (`Option<string>`). Pages whose text is `None` or `""` are skipped. Every other page contributes its text followed by one newline.
- **Embedding batching and index pairing** (`create_embeddings_from_pdf`), in module `Embeddings` (`embeddings.dfy`). The chunks are cut into consecutive batches of 200. The embedder (`seq<C> -> Option<seq<V>>`, where `None` means the call raised) is called once per batch. The docs and vectors are accumulated. The index is then built from `zip(docs, batch_vectors)`; the vector store refuses an empty pair list. The retriever is configured with `k = 4`. `BuildIndex` is the Python loop statement for statement. `CreateEmbeddings` is the same computation as a function.
- **The upload/ask service** (`backend/api.py`), in module `Api` (`api.dfy`). Each request is an atomic transition over the cache, a `map<string, R>` from file name to an opaque retriever. The builder and the question-answering chain are function parameters. "Not invoked" is stated as "the outcome is the same whatever that parameter is".

`main.py` is a byte-identical copy of `backend/main.py`, so one module (`PdfText` plus `Embeddings`) models both. A row below that cites either file applies equally to the same lines of the other.

Shared `Option`/`Result` types live in `wrappers.dfy`.

## Model

`Embeddings.Batches` is the model of the slices taken at `backend/main.py:32-33`. The rows for `BatchesFlatten`, `BatchSizes`, `BatchCount`, `BatchAt` and `LastBatch` state what it computes.

| member | source | states |
|---|---|---|
| PdfText.ExtractPdfText | backend/main.py:13-18 | The text is `""` exactly when no page has non-empty text. Otherwise it ends with a newline. |
| PdfText.ExtractIsTerminatedKept | backend/main.py:13-18 | The left-to-right loop yields the non-empty page texts in page order, each followed by exactly one newline. Empty and `None` pages contribute nothing. |
| PdfText.ExtractAppend | backend/main.py:14-17 | Extraction distributes over concatenating page lists, because each page's contribution is independent of the others. |
| PdfText.ExtractLength | main.py:13-18 | The text's length is the sum of (page length + 1) over the pages with non-empty text. |
| PdfText.TerminatedPlacement | main.py:16-17 | The j-th non-empty page text appears at its offset (the sum of earlier lengths + 1), immediately followed by a newline. |
| PdfText.ExtractPdfTextLoop | main.py:10-18 | The Python loop computes the in-order, newline-terminated concatenation of the non-empty pages. Its result is `""` exactly when there are none. |
| Embeddings.BatchesFlatten | backend/main.py:32-33 | The batches, concatenated, give back the chunk list exactly (nothing dropped, duplicated or reordered). |
| Embeddings.BatchSizes | backend/main.py:32-33 | Every batch holds 1 to `size` chunks. |
| Embeddings.BatchCount | backend/main.py:32-33 | The batch count b is the least with b·size ≥ n: (b−1)·size < n ≤ b·size. |
| Embeddings.BatchCountCeil | main.py:27-33 | With the batch size 200 there are ceil(n/200) batches. |
| Embeddings.BatchAt | main.py:32-33 | Batch j is the contiguous slice `chunks[j·size : j·size + size]`, clamped at the end as Python slicing is. |
| Embeddings.LastBatch | backend/main.py:27-33 | With b batches of 200, the last batch is `chunks[200·(b−1):]` and is non-empty. |
| Embeddings.LoopGuard | main.py:32 | For every j, `range(0, n, 200)` reaches index j·200 exactly when j is a batch index. |
| Embeddings.EmbedBatches | backend/main.py:35 | Ingestion fails exactly when some batch's embedder call raises. Otherwise result j is the embedder's result for batch j, for every j. |
| Embeddings.EmbedAllPreservesOrder | backend/main.py:32-37 | For any batch size, with an embedder returning one vector per input, the accumulated vectors are exactly the chunks' vectors in chunk order, so there are as many vectors as chunks. |
| Embeddings.Zip | main.py:40 | Python's `zip`: as many pairs as the shorter list, pair i is (a_i, b_i). |
| Embeddings.FromEmbeddings | backend/main.py:39-44 | Building the store fails exactly on an empty pair list. Otherwise the retriever indexes exactly the given pairs with k = 4. |
| Embeddings.CreateEmbeddings | backend/main.py:32-44 | An empty chunk list fails (`batch_vectors` unbound) and no other input does so. Failure with the embedder error happens exactly when an embedder call raises. A built retriever has k = 4 and between 1 and n pairs. |
| Embeddings.AsWrittenOutcome | backend/main.py:32-41 | For any embedder whose calls all succeed: an empty chunk list fails as unbound, and otherwise the index is built from `zip(chunks, last batch's result)`. |
| Embeddings.BuildIndex | main.py:27-44 | The loop ends with `docs` equal to the chunk list and `vectors` the in-order concatenation of the batch results. It returns the as-written outcome, including failure on an empty chunk list. |
| Embeddings.AsWrittenPairs | backend/main.py:35-41 | The index receives only as many pairs as the last batch has chunks. Pair i is (chunk i, vector of chunk 200·(b−1)+i). |
| Embeddings.PairingCorrectWithinOneBatch | main.py:35-41 | With 1 to 200 chunks, pairing is correct: one pair per chunk, each with its own vector. |
| Embeddings.PairingBrokenAboveOneBatch | backend/main.py:39-41 | Above 200 chunks, fewer pairs than chunks reach the index (at most 200), and pair i carries the vector of a chunk from the last batch. |
| Embeddings.PairingCounterexample | main.py:39-41 | Take 201 chunks numbered 0..200, each embedded as itself. The index is built from the single pair (0, 200). |
| Embeddings.CreateEmbeddingsCorrected | backend/main.py:36-41 | Failure modes of the intended `zip(docs, vectors)` pairing: an empty chunk list fails because the store gets no pairs, and the embedder error happens exactly when a call raises. A built retriever has k = 4 and between 1 and n pairs. |
| Embeddings.CorrectedPairsEveryChunk | main.py:36-41 | With the intended pairing, every chunk is paired with its own vector, for any number of chunks. |
| Embeddings.CreateEmbeddingsFromPdf | backend/main.py:20-44 | A retriever built from a PDF has k = 4 and between 1 and n pairs, for the n chunks of its extracted text. A text that splits into no chunks fails as unbound. A raising embedder call fails with the embedder error. |
| Embeddings.PdfIngestIsBatching | backend/main.py:13-30 | Ingesting a PDF runs the batching pipeline on the splitter's chunks of the non-empty page texts, in page order, each newline-terminated. |
| Embeddings.PdfIngestPairs | backend/main.py:22-44 | For a PDF whose text splits into at least one chunk, with a well-behaved embedder, the index gets the last batch's count of pairs. Pair i is (chunk i, vector of chunk 200·(b−1)+i). |
| Embeddings.TextlessPdfFails | main.py:22-40 | If no page has text and the splitter returns no chunks for `""`, the ingestion fails with `batch_vectors` unbound. |
| Api.Upload | backend/api.py:47-72 | A failed upload leaves the cache unchanged. The upload succeeds exactly when the file is a PDF and its name is cached or the build succeeds. No existing entry is removed or replaced. At most one entry, under the file name, is added, and only by a successful build, which holds the built retriever and replies "Document processed and ready for questions.". |
| Api.NonPdfRejectedBeforeCacheLookup | backend/api.py:47-54 | A non-PDF upload is rejected with 400 and the cache is unchanged, even under a cached name. |
| Api.CacheHitSkipsBuilder | backend/api.py:52-54 | On a cached name the outcome does not depend on the builder. The reply is "Document already uploaded." with the name as id, and the cache is unchanged. |
| Api.FailedBuildCachesNothing | backend/api.py:66-72 | A failed build replies 500 "Error processing file: " plus the exception text. The cache is unchanged, and a later question on that name gets 404. |
| Api.SecondUploadKeepsFirst | backend/api.py:52-54 | After a successful upload, a second upload under the same name keeps the first retriever (whatever the new content) and replies "Document already uploaded.". |
| Api.ShapeSources | backend/api.py:102-105 | The response's sources have the chain's source documents' length and order. Element i is {content: page_content_i, metadata: metadata_i}. |
| Api.ShapeSourcesInjective | backend/api.py:102-107 | Shaping loses nothing: equal source lists come only from equal chain source lists. |
| Api.Ask | backend/api.py:88-109 | The reply is 404 exactly when the id is not cached. Otherwise it succeeds exactly when the chain does, with the chain's answer and shaped sources. A chain failure replies 500 with "Error during Q&A: " followed by the exception text. |
| Api.AskMissSkipsChain | backend/api.py:88-89 | On an uncached id the reply does not depend on the chain. |
| Api.UploadThenAsk | backend/api.py:66-107 | After a successful upload of a new name, a question on it is answered from the retriever just built. |
| Api.PdfBuilder | backend/api.py:66 | The builder the service calls yields a retriever with k = 4 and between 1 and n pairs, for the n chunks the extracted text splits into. A text that splits into no chunks is refused with the unbound-variable error. A document whose embedding raises is refused with the embedder error. Any other failure is one of the three build errors. |
| Api.Run | backend/api.py:16 | The process-lifetime cache across a request sequence: every entry present before is still present, with the same retriever. |
| Api.Handle | backend/api.py:40-109 | A question never changes the cache. A rejected request never changes it. No request removes or replaces a cached entry. |
| Api.CacheOnlyGrows | backend/api.py:53-67 | Over any request sequence, every key of the final cache was cached before or is the name of an uploaded file. |
| Api.AsksLeaveCacheUnchanged | backend/api.py:88-109 | A sequence of questions leaves the cache exactly as it was. |
| Api.TextlessUploadRejected | backend/api.py:66-72 | Uploading a new PDF without page text replies 500 and caches nothing. |

## Left out

- The PDF reader, the recursive character splitter (chunk size 800, overlap 100), the embedding model, FAISS similarity search and the language model are outside libraries and hosted services. They appear only as opaque types and function parameters. The model makes no claim about chunk sizes, overlap, vector values or answer quality.
- `build_qa_system` and the model deployment it names are folded into the `chain` parameter of `Api.Ask`. A failure there is a chain failure (500).
- Temp-file creation, `await file.read()` and `print` logging are I/O. Their failures are part of the builder's failure, as in the source, where they fall under the same catch-all.
- Api.Upload: a failure of the temp-file clean-up in the `finally` block is not modelled. It is outside the catch-all and runs after the cache write, so in the source it could fail a request whose entry is already cached, or replace the 500 of a failed build. The promise that a failed upload leaves the cache unchanged holds only when the clean-up succeeds.
- Embeddings.CreateEmbeddings: building the vector store fails in the model only on an empty pair list. Its failure on vectors of unequal dimension, and any other failure inside FAISS, are not modelled, because the vectors are opaque values.
- Concurrency: the cache check and the cache write in `upload_document` are separated by awaits, so two uploads of one name could both build. Each request is modelled as one atomic transition.
- Api.PdfBuilder: the embedding provider's own exception text is not modelled, because an embedder call that raises is `None` and carries no message. Every embedder failure therefore reaches the 500 detail as the same rendered `EmbedderFailed`. Failures of the PDF reader and of `page.extract_text()` (`backend/main.py:12,15`) are not modelled either, since pages arrive already extracted.
- The exact text of Python's unbound-variable exception is not modelled. `Api.TextlessUploadRejected` renders build errors with an arbitrary `describe` function.
- The single-call `/ask` variant in the root `api.py`, the React front end and `backend/models.py` (Azure client configuration) are not part of this model.
- FastAPI's `UploadFile.filename` may be absent in principle. The model takes the file name as a string, as the source's type hints do.

## Findings

| source | as written | input that shows it | evidently intended | confidence | as-written member | corrected member |
|---|---|---|---|---|---|---|
| backend/main.py:39-41 | The index is built from `zip(docs, batch_vectors)`, where `batch_vectors` holds only the last batch's vectors. Above 200 chunks the index gets `len(last batch)` pairs, and each pairs chunk i with the vector of chunk 200·(b−1)+i. An empty chunk list leaves `batch_vectors` unbound, and the call raises. | 201 chunks: the index receives one pair, (chunk 0, vector of chunk 200) | `zip(docs, vectors)`: every chunk paired with its own vector | not executed; high | Embeddings.PairingCounterexample | Embeddings.CorrectedPairsEveryChunk |

The same code is at `main.py:39-41`. The service calls `CreateEmbeddings` (as written) through `Api.PdfBuilder`, so the `Api` lemmas describe the deployed behaviour. `CreateEmbeddingsCorrected` still fails on an empty chunk list, because the vector store gets no pairs.

=== FILE: api.dfy ===
/** The upload/ask service (`backend/api.py`) as atomic transitions over the
    in-memory retriever cache, a map from document id (the uploaded file's
    name) to an opaque retriever `R`.

    The retriever builder (temp-file write plus index construction) and the
    question-answering chain are parameters: the builder maps the upload's
    opaque content `B` to a retriever or an exception message, the chain maps
    a retriever and a question to the chain's result (answer text plus the
    source documents, with opaque metadata `M`) or an exception message. */
module Api {
  import opened Wrappers
  import PdfText
  import Embeddings

  const PdfContentType := "application/pdf"

  const AlreadyUploadedMessage := "Document already uploaded."
  const ProcessedMessage := "Document processed and ready for questions."
  const InvalidTypeDetail := "Invalid file type. Please upload a PDF."
  const NotFoundDetail := "Document not found. Please upload it first via the /upload endpoint."
  const ProcessingErrorPrefix := "Error processing file: "
  const QaErrorPrefix := "Error during Q&A: "

  type Cache<R> = map<string, R>

  datatype UploadFile<B> = UploadFile(filename: string, contentType: string, content: B)

  datatype UploadResponse = UploadResponse(message: string, documentId: string)

  datatype HttpError = HttpError(status: nat, detail: string)

  /** A source document as the chain returns it. */
  datatype ChainDocument<M> = ChainDocument(pageContent: string, metadata: M)

  datatype ChainResult<M> = ChainResult(result: string, sourceDocuments: seq<ChainDocument<M>>)

  /** A source document as the response carries it: `{content, metadata}`. */
  datatype Source<M> = Source(content: string, metadata: M)

  datatype QaResponse<M> = QaResponse(answer: string, sourceDocuments: seq<Source<M>>)

  /** The cache after an upload, and the reply. */
  datatype UploadOutcome<R> = UploadOutcome(cache: Cache<R>, reply: Result<UploadResponse, HttpError>)

  /** `upload_document`: content-type guard, then cache-hit short-circuit,
      then build and store, or fail with 500 and store nothing. */
  function Upload<B, R>(cache: Cache<R>, file: UploadFile<B>, build: B -> Result<R, string>): (out: UploadOutcome<R>)
    ensures out.reply.Failure? ==> out.cache == cache
    ensures out.reply.Success? <==>
      file.contentType == PdfContentType && (file.filename in cache || build(file.content).Success?)
    ensures out.reply.Success? ==> out.reply.value.documentId == file.filename && file.filename in out.cache
    ensures forall id :: id in cache ==> id in out.cache && out.cache[id] == cache[id]
    ensures out.cache.Keys <= cache.Keys + {file.filename}
    ensures out.cache != cache ==>
      && file.filename !in cache
      && build(file.content).Success?
      && out.cache[file.filename] == build(file.content).value
      && out.reply == Success(UploadResponse(ProcessedMessage, file.filename))
  {
    if file.contentType != PdfContentType then
      UploadOutcome(cache, Failure(HttpError(400, InvalidTypeDetail)))
    else if file.filename in cache then
      UploadOutcome(cache, Success(UploadResponse(AlreadyUploadedMessage, file.filename)))
    else
      match build(file.content)
      case Failure(e) => UploadOutcome(cache, Failure(HttpError(500, ProcessingErrorPrefix + e)))
      case Success(retriever) =>
        UploadOutcome(cache[file.filename := retriever], Success(UploadResponse(ProcessedMessage, file.filename)))
  }

  /** The response's source list: one `{content, metadata}` per chain source
      document, in the chain's order. */
  function ShapeSources<M>(docs: seq<ChainDocument<M>>): (sources: seq<Source<M>>)
    ensures |sources| == |docs|
    ensures forall i :: 0 <= i < |docs| ==>
      sources[i].content == docs[i].pageContent && sources[i].metadata == docs[i].metadata
  {
    if |docs| == 0 then [] else [Source(docs[0].pageContent, docs[0].metadata)] + ShapeSources(docs[1..])
  }

  /** Shaping loses nothing: distinct chain results give distinct source
      lists. */
  lemma ShapeSourcesInjective<M>(a: seq<ChainDocument<M>>, b: seq<ChainDocument<M>>)
    requires ShapeSources(a) == ShapeSources(b)
    ensures a == b
  {
    assert |a| == |b|;
    forall i | 0 <= i < |a| ensures a[i] == b[i] {
      assert ShapeSources(a)[i] == ShapeSources(b)[i];
    }
  }

  /** `ask_question`: 404 unless the id is cached; otherwise run the chain on
      the cached retriever, and answer or fail with 500. */
  function Ask<R, M>(cache: Cache<R>, documentId: string, question: string, chain: (R, string) -> Result<ChainResult<M>, string>)
    : (reply: Result<QaResponse<M>, HttpError>)
    ensures (reply.Failure? && reply.error.status == 404) <==> documentId !in cache
    ensures documentId !in cache ==> reply.error.detail == NotFoundDetail
    ensures documentId in cache ==> (reply.Success? <==> chain(cache[documentId], question).Success?)
    ensures documentId in cache && chain(cache[documentId], question).Failure? ==>
      reply == Failure(HttpError(500, QaErrorPrefix + chain(cache[documentId], question).error))
    ensures reply.Success? ==>
      var result := chain(cache[documentId], question).value;
      && reply.value.answer == result.result
      && |reply.value.sourceDocuments| == |result.sourceDocuments|
      && forall i :: 0 <= i < |result.sourceDocuments| ==>
           reply.value.sourceDocuments[i] == Source(result.sourceDocuments[i].pageContent, result.sourceDocuments[i].metadata)
  {
    if documentId !in cache then
      Failure(HttpError(404, NotFoundDetail))
    else
      match chain(cache[documentId], question)
      case Failure(e) => Failure(HttpError(500, QaErrorPrefix + e))
      case Success(result) => Success(QaResponse(result.result, ShapeSources(result.sourceDocuments)))
  }

  /** A request to the service and its reply. */
  datatype Request<B> = UploadRequest(file: UploadFile<B>) | AskRequest(documentId: string, question: string)

  datatype Reply<M> = Uploaded(upload: UploadResponse) | Answered(answer: QaResponse<M>) | Rejected(error: HttpError)

  datatype Step<R, M> = Step(cache: Cache<R>, reply: Reply<M>)

  /** One request handled atomically against the cache. */
  function Handle<B, R, M>(cache: Cache<R>, request: Request<B>, build: B -> Result<R, string>,
                           chain: (R, string) -> Result<ChainResult<M>, string>): (step: Step<R, M>)
    ensures request.AskRequest? ==> step.cache == cache
    ensures forall id :: id in cache ==> id in step.cache && step.cache[id] == cache[id]
    ensures step.reply.Rejected? ==> step.cache == cache
  {
    match request
    case UploadRequest(file) =>
      var out := Upload(cache, file, build);
      Step(out.cache, match out.reply case Success(u) => Uploaded(u) case Failure(e) => Rejected(e))
    case AskRequest(id, question) =>
      Step(cache, match Ask(cache, id, question, chain) case Success(a) => Answered(a) case Failure(e) => Rejected(e))
  }

  /** The cache after handling the requests in order. */
  function Run<B, R, M>(cache: Cache<R>, requests: seq<Request<B>>, build: B -> Result<R, string>,
                        chain: (R, string) -> Result<ChainResult<M>, string>): (final: Cache<R>)
    ensures forall id :: id in cache ==> id in final && final[id] == cache[id]
    decreases |requests|
  {
    if |requests| == 0 then cache
    else Run(Handle(cache, requests[0], build, chain).cache, requests[1..], build, chain)
  }

  /** The file names of the upload requests. */
  function UploadedNames<B>(requests: seq<Request<B>>): set<string> {
    if |requests| == 0 then {}
    else (if requests[0].UploadRequest? then {requests[0].file.filename} else {}) + UploadedNames(requests[1..])
  }

  /** Over any sequence of requests every new key is the name of an uploaded
      file (that no key is removed and no retriever replaced is `Run`'s own
      contract). */
  lemma {:induction false} CacheOnlyGrows<B, R, M>(cache: Cache<R>, requests: seq<Request<B>>, build: B -> Result<R, string>,
                                                  chain: (R, string) -> Result<ChainResult<M>, string>)
    ensures Run(cache, requests, build, chain).Keys <= cache.Keys + UploadedNames(requests)
    decreases |requests|
  {
    if |requests| != 0 {
      var next := Handle(cache, requests[0], build, chain).cache;
      CacheOnlyGrows(next, requests[1..], build, chain);
      if requests[0].UploadRequest? {
        assert next.Keys <= cache.Keys + {requests[0].file.filename};
      }
    }
  }

  /** Questions never change the cache. */
  lemma {:induction false} AsksLeaveCacheUnchanged<B, R, M>(cache: Cache<R>, requests: seq<Request<B>>, build: B -> Result<R, string>,
                                         chain: (R, string) -> Result<ChainResult<M>, string>)
    requires forall i :: 0 <= i < |requests| ==> requests[i].AskRequest?
    ensures Run(cache, requests, build, chain) == cache
    decreases |requests|
  {
    if |requests| != 0 {
      AsksLeaveCacheUnchanged(cache, requests[1..], build, chain);
    }
  }

  /** The content type is checked before the cache: a non-PDF upload is
      rejected with 400 even under a cached name. */
  lemma NonPdfRejectedBeforeCacheLookup<B, R>(cache: Cache<R>, file: UploadFile<B>, build: B -> Result<R, string>)
    requires file.contentType != PdfContentType
    ensures Upload(cache, file, build) == UploadOutcome(cache, Failure(HttpError(400, InvalidTypeDetail)))
  {
  }

  /** A cache hit does not invoke the builder: the outcome is the same
      whatever the builder would do, and it acknowledges the cached name. */
  lemma CacheHitSkipsBuilder<B, R>(cache: Cache<R>, file: UploadFile<B>, build: B -> Result<R, string>, other: B -> Result<R, string>)
    requires file.contentType == PdfContentType && file.filename in cache
    ensures Upload(cache, file, build) == Upload(cache, file, other)
    ensures Upload(cache, file, build) == UploadOutcome(cache, Success(UploadResponse(AlreadyUploadedMessage, file.filename)))
  {
  }

  /** A failed build stores nothing: the reply is 500 with the exception
      text, and a later question about that name gets 404. */
  lemma FailedBuildCachesNothing<B, R, M>(cache: Cache<R>, file: UploadFile<B>, build: B -> Result<R, string>,
                                           question: string, chain: (R, string) -> Result<ChainResult<M>, string>)
    requires file.contentType == PdfContentType && file.filename !in cache
    requires build(file.content).Failure?
    ensures Upload(cache, file, build).cache == cache
    ensures Upload(cache, file, build).reply == Failure(HttpError(500, ProcessingErrorPrefix + build(file.content).error))
    ensures Ask(Upload(cache, file, build).cache, file.filename, question, chain) == Failure(HttpError(404, NotFoundDetail))
  {
  }

  /** Uploading is idempotent per name: a second upload of the same name
      (with the same or different content) keeps the first retriever, and
      only the message differs. */
  lemma SecondUploadKeepsFirst<B, R>(cache: Cache<R>, first: UploadFile<B>, second: UploadFile<B>, build: B -> Result<R, string>)
    requires first.contentType == PdfContentType && second.contentType == PdfContentType
    requires first.filename == second.filename
    requires Upload(cache, first, build).reply.Success?
    ensures var after := Upload(cache, first, build).cache;
      && Upload(after, second, build) == UploadOutcome(after, Success(UploadResponse(AlreadyUploadedMessage, second.filename)))
  {
  }

  /** A question on an uncached id is answered 404 without running the
      chain: the reply is the same whatever the chain would do. */
  lemma AskMissSkipsChain<R, M>(cache: Cache<R>, documentId: string, question: string,
                                chain: (R, string) -> Result<ChainResult<M>, string>,
                                other: (R, string) -> Result<ChainResult<M>, string>)
    requires documentId !in cache
    ensures Ask(cache, documentId, question, chain) == Ask(cache, documentId, question, other)
  {
  }

  /** After a successful upload of a new name, a question about it is
      answered from the retriever the builder produced. */
  lemma UploadThenAsk<B, R, M>(cache: Cache<R>, file: UploadFile<B>, build: B -> Result<R, string>,
                               question: string, chain: (R, string) -> Result<ChainResult<M>, string>)
    requires file.contentType == PdfContentType && file.filename !in cache
    requires build(file.content).Success?
    requires chain(build(file.content).value, question).Success?
    ensures var after := Upload(cache, file, build).cache;
      var result := chain(build(file.content).value, question).value;
      Ask(after, file.filename, question, chain) == Success(QaResponse(result.result, ShapeSources(result.sourceDocuments)))
  {
  }

  /** The builder the service uses: `create_embeddings_from_pdf` on the
      uploaded document's pages, with the exception rendered by `describe`.
      A built retriever searches 4 neighbours among at most one pair per
      chunk; a document that splits into no chunks, or whose embedding
      raises, is refused with the corresponding error. */
  function PdfBuilder<V>(split: string -> seq<string>, embed: seq<string> -> Option<seq<V>>,
                         describe: Embeddings.BuildError -> string)
    : (build: seq<PdfText.Page> -> Result<Embeddings.Retriever<string, V>, string>)
    ensures forall pages :: build(pages).Success? ==>
      && build(pages).value.k == Embeddings.NeighbourCount
      && 0 < |build(pages).value.pairs| <= |split(PdfText.ExtractPdfText(pages))|
    ensures forall pages :: split(PdfText.ExtractPdfText(pages)) == [] ==>
      build(pages) == Failure(describe(Embeddings.BatchVectorsUnbound))
    ensures forall pages ::
      Embeddings.EmbedBatches(Embeddings.Batches(split(PdfText.ExtractPdfText(pages)), Embeddings.BatchSize), embed).None? ==>
      build(pages) == Failure(describe(Embeddings.EmbedderFailed))
    ensures forall pages :: build(pages).Failure? ==>
      build(pages).error in {describe(Embeddings.EmbedderFailed), describe(Embeddings.BatchVectorsUnbound), describe(Embeddings.EmptyIndex)}
  {
    var build := (pages: seq<PdfText.Page>) =>
      match Embeddings.CreateEmbeddingsFromPdf(pages, split, embed)
      case Success(retriever) => Success(retriever)
      case Failure(e) => Failure(describe(e));
    assert forall pages :: Embeddings.CreateEmbeddingsFromPdf(pages, split, embed).Success? ==>
      0 < |Embeddings.CreateEmbeddingsFromPdf(pages, split, embed).value.pairs| <= |split(PdfText.ExtractPdfText(pages))|;
    assert forall pages :: split(PdfText.ExtractPdfText(pages)) == [] ==>
      Embeddings.CreateEmbeddingsFromPdf(pages, split, embed) == Failure(Embeddings.BatchVectorsUnbound);
    build
  }

  /** Uploading a new PDF none of whose pages has text is answered 500 and
      caches nothing, because the embedding loop never binds
      `batch_vectors`. */
  lemma TextlessUploadRejected<V>(cache: Cache<Embeddings.Retriever<string, V>>, file: UploadFile<seq<PdfText.Page>>,
                                  split: string -> seq<string>, embed: seq<string> -> Option<seq<V>>,
                                  describe: Embeddings.BuildError -> string)
    requires file.contentType == PdfContentType && file.filename !in cache
    requires forall i :: 0 <= i < |file.content| ==> !PdfText.HasText(file.content[i])
    requires split("") == []
    ensures var out := Upload(cache, file, PdfBuilder(split, embed, describe));
      && out.cache == cache
      && out.reply == Failure(HttpError(500, ProcessingErrorPrefix + describe(Embeddings.BatchVectorsUnbound)))
  {
    Embeddings.TextlessPdfFails(file.content, split, embed);
  }
}

=== FILE: embeddings.dfy ===
/** Embedding batching and index pairing (`create_embeddings_from_pdf`).

    The text splitter and the embedding model are not modelled: chunks are an
    arbitrary sequence of an opaque chunk type `C`, and the embedder is a
    function from a batch of chunks to either the batch's vectors (of an
    opaque vector type `V`) or `None` when the provider call raised. The
    vector store is modelled by what it is given: the list of
    (chunk, vector) pairs and the retriever's neighbour count. */
module Embeddings {
  import opened Wrappers
  import PdfText

  /** Number of chunks sent to the embedder per call. */
  const BatchSize: nat := 200

  /** Neighbour count `k` the retriever is configured with. */
  const NeighbourCount: nat := 4

  /** Why index construction failed: an embedder call raised, the pairing
      step read `batch_vectors` before any batch bound it, or the vector store
      was given no pairs. */
  datatype BuildError = EmbedderFailed | BatchVectorsUnbound | EmptyIndex

  /** A vector-store retriever: the (chunk, vector) pairs the index was built
      from and how many neighbours each query returns. */
  datatype Retriever<C, V> = Retriever(pairs: seq<(C, V)>, k: nat)

  function Min(a: int, b: int): int {
    if a <= b then a else b
  }

  function Flatten<T>(bs: seq<seq<T>>): seq<T> {
    if |bs| == 0 then [] else bs[0] + Flatten(bs[1..])
  }

  lemma {:induction false} FlattenSnoc<T>(bs: seq<seq<T>>, b: seq<T>)
    ensures Flatten(bs + [b]) == Flatten(bs) + b
    decreases |bs|
  {
    if |bs| == 0 {
      assert bs + [b] == [b];
    } else {
      assert (bs + [b])[1..] == bs[1..] + [b];
      FlattenSnoc(bs[1..], b);
    }
  }

  /** Python's `zip`: pairs up to the shorter length. */
  function Zip<A, B>(a: seq<A>, b: seq<B>): (z: seq<(A, B)>)
    ensures |z| == Min(|a|, |b|)
    ensures forall i :: 0 <= i < |z| ==> z[i] == (a[i], b[i])
  {
    if |a| == 0 || |b| == 0 then [] else [(a[0], b[0])] + Zip(a[1..], b[1..])
  }

  /** What a well-behaved embedder returns for a batch: one vector per chunk. */
  function Pointwise<C, V>(f: C -> V, cs: seq<C>): (vs: seq<V>)
    ensures |vs| == |cs|
    ensures forall i :: 0 <= i < |cs| ==> vs[i] == f(cs[i])
  {
    if |cs| == 0 then [] else [f(cs[0])] + Pointwise(f, cs[1..])
  }

  /** The embedder never fails and maps every chunk independently with `f`. */
  ghost predicate OnePerInput<C(!new), V>(embed: seq<C> -> Option<seq<V>>, f: C -> V) {
    forall cs: seq<C> :: embed(cs) == Some(Pointwise(f, cs))
  }

  /** `ceil(n / size)`. */
  function CeilDiv(n: nat, size: nat): nat
    requires size > 0
  {
    (n + size - 1) / size
  }

  /** The slices `chunks[i : i + size]` for `i` in `range(0, len(chunks), size)`. */
  function Batches<T>(s: seq<T>, size: nat): seq<seq<T>>
    requires size > 0
    decreases |s|
  {
    if |s| == 0 then []
    else
      var n := Min(size, |s|);
      [s[..n]] + Batches(s[n..], size)
  }

  /** The batches, concatenated, give back the chunk list exactly. */
  lemma {:induction false} BatchesFlatten<T>(s: seq<T>, size: nat)
    requires size > 0
    ensures Flatten(Batches(s, size)) == s
    decreases |s|
  {
    if |s| != 0 {
      var n := Min(size, |s|);
      BatchesFlatten(s[n..], size);
      assert s == s[..n] + s[n..];
    }
  }

  /** Every batch holds between 1 and `size` chunks. */
  lemma {:induction false} BatchSizes<T>(s: seq<T>, size: nat, j: nat)
    requires size > 0
    requires j < |Batches(s, size)|
    ensures 1 <= |Batches(s, size)[j]| <= size
    decreases |s|
  {
    var n := Min(size, |s|);
    assert Batches(s, size) == [s[..n]] + Batches(s[n..], size);
    if j != 0 {
      BatchSizes(s[n..], size, j - 1);
    }
  }

  lemma MulSucc(j: nat, size: nat)
    ensures (j + 1) * size == j * size + size
  {
  }

  /** The batch count `b` is the least with `b * size >= n`. */
  lemma {:induction false} BatchCount<T>(s: seq<T>, size: nat)
    requires size > 0
    ensures (|Batches(s, size)| - 1) * size < |s| <= |Batches(s, size)| * size
    decreases |s|
  {
    var bs := Batches(s, size);
    if |s| == 0 {
    } else if |s| <= size {
      assert s[|s|..] == [];
      assert Batches(s[|s|..], size) == [];
      assert |bs| == 1;
    } else {
      var rest := Batches(s[size..], size);
      BatchCount(s[size..], size);
      assert |bs| == |rest| + 1;
      assert |rest| >= 1;
      MulSucc(|rest| - 1, size);
      MulSucc(|rest|, size);
    }
  }

  /** With 200 chunks per batch there are ceil(n / 200) batches. */
  lemma BatchCountCeil<T>(s: seq<T>)
    ensures |Batches(s, BatchSize)| == CeilDiv(|s|, BatchSize)
  {
    BatchCount(s, BatchSize);
    var b := |Batches(s, BatchSize)|;
    if b > 0 {
      MulSucc(b - 1, BatchSize);
    }
  }

  lemma SliceOfDrop<T>(s: seq<T>, n: nat, lo: nat, hi: nat)
    requires n <= |s| && lo <= hi <= |s| - n
    ensures s[n..][lo..hi] == s[n + lo..n + hi]
  {
  }

  /** Where batch `j` starts: `j` whole batches in. */
  function BatchStart(j: nat, size: nat): nat {
    if j == 0 then 0 else BatchStart(j - 1, size) + size
  }

  lemma {:induction false} BatchStartIsProduct(j: nat, size: nat)
    ensures BatchStart(j, size) == j * size
  {
    if j != 0 {
      BatchStartIsProduct(j - 1, size);
      MulSucc(j - 1, size);
    }
  }

  /** Batch `j` is the contiguous slice starting at `j * size`. */
  lemma BatchAt<T>(s: seq<T>, size: nat, j: nat)
    requires size > 0
    requires j < |Batches(s, size)|
    ensures j * size < |s|
    ensures Batches(s, size)[j] == s[j * size..Min(j * size + size, |s|)]
  {
    BatchAtStart(s, size, j);
    BatchStartIsProduct(j, size);
  }

  lemma {:induction false} BatchAtStart<T>(s: seq<T>, size: nat, j: nat)
    requires size > 0
    requires j < |Batches(s, size)|
    ensures BatchStart(j, size) < |s|
    ensures Batches(s, size)[j] == s[BatchStart(j, size)..Min(BatchStart(j, size) + size, |s|)]
    decreases j
  {
    if j == 0 {
      BatchesHead(s, size);
      assert BatchStart(j, size) == 0;
    } else {
      BatchesTail(s, size, j);
      BatchAtStart(s[size..], size, j - 1);
      ShiftedBatch(s, size, j, Batches(s, size)[j]);
    }
  }

  /** Batch 0 is the first `size` chunks, or all of them. */
  lemma BatchesHead<T>(s: seq<T>, size: nat)
    requires size > 0
    requires 0 < |Batches(s, size)|
    ensures Batches(s, size)[0] == s[..Min(size, |s|)]
  {
  }

  /** Every later batch is a batch of the chunks after the first `size`. */
  lemma BatchesTail<T>(s: seq<T>, size: nat, j: nat)
    requires size > 0
    requires 0 < j < |Batches(s, size)|
    ensures size < |s|
    ensures j - 1 < |Batches(s[size..], size)|
    ensures Batches(s, size)[j] == Batches(s[size..], size)[j - 1]
  {
    var n := Min(size, |s|);
    assert Batches(s, size) == [s[..n]] + Batches(s[n..], size);
  }

  /** A batch of the chunks after the first `size`, shifted back into the
      whole list: batch `j - 1` of the rest is batch `j` of the whole. */
  lemma ShiftedBatch<T>(s: seq<T>, size: nat, j: nat, batch: seq<T>)
    requires 0 < j && size < |s|
    requires BatchStart(j - 1, size) < |s| - size
    requires batch == s[size..][BatchStart(j - 1, size)..Min(BatchStart(j - 1, size) + size, |s| - size)]
    ensures BatchStart(j, size) < |s|
    ensures batch == s[BatchStart(j, size)..Min(BatchStart(j, size) + size, |s|)]
  {
    var lo := BatchStart(j - 1, size);
    SliceOfDrop(s, size, lo, Min(lo + size, |s| - size));
  }

  /** Embedder results per batch, in batch order, or `None` as soon as some
      call raised. */
  function EmbedBatches<C, V>(bs: seq<seq<C>>, embed: seq<C> -> Option<seq<V>>): (r: Option<seq<seq<V>>>)
    ensures r.None? <==> exists j :: 0 <= j < |bs| && embed(bs[j]).None?
    ensures r.Some? ==> |r.value| == |bs|
    ensures r.Some? ==> forall j :: 0 <= j < |bs| ==> embed(bs[j]) == Some(r.value[j])
  {
    if |bs| == 0 then Some([])
    else
      match embed(bs[0])
      case None => None
      case Some(v) =>
        match EmbedBatches(bs[1..], embed)
        case None => None
        case Some(vs) => Some([v] + vs)
  }

  /** `FAISS.from_embeddings` followed by `as_retriever` with `k = 4`: the
      store cannot be built from an empty pair list; otherwise it indexes
      exactly the pairs it is given. */
  function FromEmbeddings<C, V>(pairs: seq<(C, V)>): (r: Result<Retriever<C, V>, BuildError>)
    ensures r.Failure? <==> |pairs| == 0
    ensures r.Failure? ==> r.error == EmptyIndex
    ensures r.Success? ==> r.value.pairs == pairs && r.value.k == NeighbourCount
  {
    if |pairs| == 0 then Failure(EmptyIndex) else Success(Retriever(pairs, NeighbourCount))
  }

  /** Index construction as written: the pairs are `zip(docs, batch_vectors)`,
      where `batch_vectors` is whatever the LAST loop iteration bound, and an
      empty chunk list leaves it unbound. */
  function CreateEmbeddings<C, V>(chunks: seq<C>, embed: seq<C> -> Option<seq<V>>): (r: Result<Retriever<C, V>, BuildError>)
    ensures (r.Failure? && r.error == BatchVectorsUnbound) <==> |chunks| == 0
    ensures (r.Failure? && r.error == EmbedderFailed) <==> EmbedBatches(Batches(chunks, BatchSize), embed).None?
    ensures r.Success? ==> r.value.k == NeighbourCount && 0 < |r.value.pairs| <= |chunks|
  {
    BatchesFlatten(chunks, BatchSize);
    var bs := Batches(chunks, BatchSize);
    match EmbedBatches(bs, embed)
    case None => Failure(EmbedderFailed)
    case Some(vs) =>
      if |vs| == 0 then Failure(BatchVectorsUnbound)
      else FromEmbeddings(Zip(Flatten(bs), vs[|vs| - 1]))
  }

  /** Index construction as evidently intended: every chunk paired with its
      own vector, `zip(docs, vectors)`. An empty chunk list still yields no
      index: the vector store refuses an empty pair list. */
  function CreateEmbeddingsCorrected<C, V>(chunks: seq<C>, embed: seq<C> -> Option<seq<V>>): (r: Result<Retriever<C, V>, BuildError>)
    ensures |chunks| == 0 ==> r == Failure(EmptyIndex)
    ensures (r.Failure? && r.error == EmbedderFailed) <==> EmbedBatches(Batches(chunks, BatchSize), embed).None?
    ensures r.Success? ==> r.value.k == NeighbourCount && 0 < |r.value.pairs| <= |chunks|
  {
    BatchesFlatten(chunks, BatchSize);
    var bs := Batches(chunks, BatchSize);
    match EmbedBatches(bs, embed)
    case None => Failure(EmbedderFailed)
    case Some(vs) => FromEmbeddings(Zip(Flatten(bs), Flatten(vs)))
  }

  lemma PointwiseAppend<C, V>(f: C -> V, a: seq<C>, b: seq<C>)
    ensures Pointwise(f, a + b) == Pointwise(f, a) + Pointwise(f, b)
  {
    assert forall i :: 0 <= i < |a + b| ==> Pointwise(f, a + b)[i] == (Pointwise(f, a) + Pointwise(f, b))[i];
  }

  lemma {:induction false} FlattenPointwise<C, V>(bs: seq<seq<C>>, vs: seq<seq<V>>, f: C -> V)
    requires |vs| == |bs|
    requires forall j :: 0 <= j < |bs| ==> vs[j] == Pointwise(f, bs[j])
    ensures Flatten(vs) == Pointwise(f, Flatten(bs))
    decreases |bs|
  {
    if |bs| != 0 {
      FlattenPointwise(bs[1..], vs[1..], f);
      assert Flatten(bs) == bs[0] + Flatten(bs[1..]);
      PointwiseAppend(f, bs[0], Flatten(bs[1..]));
    }
  }

  /** Batching preserves order and drops nothing, for every batch size: with
      an embedder that maps each chunk to one vector, the concatenated batch
      results are exactly the chunks' vectors in chunk order. */
  lemma EmbedAllPreservesOrder<C(!new), V>(chunks: seq<C>, size: nat, embed: seq<C> -> Option<seq<V>>, f: C -> V)
    requires size > 0
    requires OnePerInput(embed, f)
    ensures EmbedBatches(Batches(chunks, size), embed).Some?
    ensures Flatten(EmbedBatches(Batches(chunks, size), embed).value) == Pointwise(f, chunks)
  {
    var bs := Batches(chunks, size);
    BatchesFlatten(chunks, size);
    assert forall j :: 0 <= j < |bs| ==> embed(bs[j]).Some?;
    var vs := EmbedBatches(bs, embed).value;
    FlattenPointwise(bs, vs, f);
  }

  /** The last batch holds the chunks from `200 * (b - 1)` to the end, where
      `b` is the number of batches. */
  lemma LastBatch<T>(s: seq<T>)
    requires |s| > 0
    ensures var b := CeilDiv(|s|, BatchSize);
      && b == |Batches(s, BatchSize)|
      && BatchSize * (b - 1) < |s|
      && Batches(s, BatchSize)[b - 1] == s[BatchSize * (b - 1)..]
  {
    BatchCount(s, BatchSize);
    var b := |Batches(s, BatchSize)|;
    BatchAt(s, BatchSize, b - 1);
    assert (b - 1) * BatchSize + BatchSize == b * BatchSize;
  }

  /** With a well-behaved embedder the as-written pairs are pair `i` =
      (chunk `i`, vector of chunk `200 * (b - 1) + i`), and there are only as
      many pairs as the last batch has chunks. */
  lemma AsWrittenPairs<C(!new), V>(chunks: seq<C>, embed: seq<C> -> Option<seq<V>>, f: C -> V)
    requires |chunks| > 0
    requires OnePerInput(embed, f)
    ensures var r := CreateEmbeddings(chunks, embed);
      var last := BatchSize * (CeilDiv(|chunks|, BatchSize) - 1);
      && r.Success?
      && |r.value.pairs| == |chunks| - last
      && forall i :: 0 <= i < |r.value.pairs| ==> r.value.pairs[i] == (chunks[i], f(chunks[last + i]))
  {
    var bs := Batches(chunks, BatchSize);
    LastBatch(chunks);
    assert forall j :: 0 <= j < |bs| ==> embed(bs[j]).Some?;
    var vs := EmbedBatches(bs, embed).value;
    assert vs[|vs| - 1] == Pointwise(f, bs[|bs| - 1]);
  }

  /** Up to one batch (at most 200 chunks) the as-written pairing is right:
      one pair per chunk, each chunk with its own vector. */
  lemma PairingCorrectWithinOneBatch<C(!new), V>(chunks: seq<C>, embed: seq<C> -> Option<seq<V>>, f: C -> V)
    requires 0 < |chunks| <= BatchSize
    requires OnePerInput(embed, f)
    ensures var r := CreateEmbeddings(chunks, embed);
      && r.Success?
      && |r.value.pairs| == |chunks|
      && forall i :: 0 <= i < |chunks| ==> r.value.pairs[i] == (chunks[i], f(chunks[i]))
  {
    AsWrittenPairs(chunks, embed, f);
    var b := CeilDiv(|chunks|, BatchSize);
    assert b == 1;
    assert BatchSize * (b - 1) == 0;
  }

  /** Above one batch the as-written pairing is truncated to the last batch
      and misaligned: pair `i` carries the vector of a different chunk. */
  lemma PairingBrokenAboveOneBatch<C(!new), V>(chunks: seq<C>, embed: seq<C> -> Option<seq<V>>, f: C -> V)
    requires |chunks| > BatchSize
    requires OnePerInput(embed, f)
    ensures var r := CreateEmbeddings(chunks, embed);
      && r.Success?
      && |r.value.pairs| < |chunks|
      && |r.value.pairs| <= BatchSize
      && forall i :: 0 <= i < |r.value.pairs| ==> r.value.pairs[i].1 == f(chunks[|chunks| - |r.value.pairs| + i])
  {
    AsWrittenPairs(chunks, embed, f);
    BatchCount(chunks, BatchSize);
  }

  /** Concrete instance: 201 chunks numbered 0..200, each embedded as
      itself. The index receives the single pair (0, 200). */
  lemma PairingCounterexample()
    ensures CreateEmbeddings(seq(201, i => i), (cs: seq<int>) => Some(cs))
         == Success(Retriever([(0, 200)], NeighbourCount))
  {
    var chunks := seq(201, i => i);
    var embed := (cs: seq<int>) => Some(cs);
    var id := (x: int) => x;
    forall cs: seq<int> ensures embed(cs) == Some(Pointwise(id, cs)) {
      assert Pointwise(id, cs) == cs;
    }
    AsWrittenPairs(chunks, embed, id);
    assert CeilDiv(201, BatchSize) == 2;
    var pairs := CreateEmbeddings(chunks, embed).value.pairs;
    assert |pairs| == 1;
    assert pairs[0] == (chunks[0], id(chunks[200]));
    assert chunks[0] == 0 && chunks[200] == 200;
    assert pairs == [(0, 200)];
  }

  /** The corrected pairing gives every chunk its own vector, for any number
      of chunks. */
  lemma CorrectedPairsEveryChunk<C(!new), V>(chunks: seq<C>, embed: seq<C> -> Option<seq<V>>, f: C -> V)
    requires |chunks| > 0
    requires OnePerInput(embed, f)
    ensures var r := CreateEmbeddingsCorrected(chunks, embed);
      && r.Success?
      && |r.value.pairs| == |chunks|
      && forall i :: 0 <= i < |chunks| ==> r.value.pairs[i] == (chunks[i], f(chunks[i]))
  {
    EmbedAllPreservesOrder(chunks, BatchSize, embed, f);
    BatchesFlatten(chunks, BatchSize);
    BatchCount(chunks, BatchSize);
  }

  /** Results that agree with every embedder call are the batch results. */
  lemma EmbeddedResults<C, V>(bs: seq<seq<C>>, embed: seq<C> -> Option<seq<V>>, results: seq<seq<V>>)
    requires |results| == |bs|
    requires forall k :: 0 <= k < |bs| ==> embed(bs[k]) == Some(results[k])
    ensures EmbedBatches(bs, embed) == Some(results)
  {
    var r := EmbedBatches(bs, embed);
    assert r.Some?;
    assert forall k :: 0 <= k < |bs| ==> r.value[k] == results[k];
    assert r.value == results;
  }

  /** The as-written outcome once every embedder call succeeded. */
  lemma AsWrittenOutcome<C, V>(chunks: seq<C>, embed: seq<C> -> Option<seq<V>>, results: seq<seq<V>>)
    requires EmbedBatches(Batches(chunks, BatchSize), embed) == Some(results)
    ensures CreateEmbeddings(chunks, embed)
         == if |results| == 0 then Failure(BatchVectorsUnbound)
            else FromEmbeddings(Zip(chunks, results[|results| - 1]))
  {
    BatchesFlatten(chunks, BatchSize);
  }

  /** `range(0, n, 200)` visits index `j * 200` exactly for the batches. */
  lemma LoopGuard<T>(s: seq<T>, j: nat)
    ensures j * BatchSize < |s| <==> j < |Batches(s, BatchSize)|
  {
    BatchCount(s, BatchSize);
  }

  /** The loop of `create_embeddings_from_pdf` after chunking, statement for
      statement: `docs` and `vectors` accumulate, `batch_vectors` holds the
      last batch's result (unbound until the first iteration). */
  method BuildIndex<C, V>(chunks: seq<C>, embed: seq<C> -> Option<seq<V>>)
    returns (docs: seq<C>, vectors: seq<V>, r: Result<Retriever<C, V>, BuildError>)
    ensures r == CreateEmbeddings(chunks, embed)
    ensures r != Failure(EmbedderFailed) ==> docs == chunks
    ensures r != Failure(EmbedderFailed) ==>
      vectors == Flatten(EmbedBatches(Batches(chunks, BatchSize), embed).value)
  {
    ghost var bs := Batches(chunks, BatchSize);
    ghost var results: seq<seq<V>> := [];
    ghost var j: nat := 0;
    docs := [];
    vectors := [];
    var batchVectors: Option<seq<V>> := None;
    var i := 0;
    LoopGuard(chunks, 0);
    while i < |chunks|
      invariant j <= |bs|
      invariant i == j * BatchSize
      invariant i < |chunks| <==> j < |bs|
      invariant docs == Flatten(bs[..j])
      invariant |results| == j
      invariant forall k :: 0 <= k < j ==> embed(bs[k]) == Some(results[k])
      invariant vectors == Flatten(results)
      invariant batchVectors == if j == 0 then None else Some(results[j - 1])
      decreases |chunks| - i
    {
      BatchAt(chunks, BatchSize, j);
      var batch := chunks[i..Min(i + BatchSize, |chunks|)];
      assert batch == bs[j];
      var called := embed(batch);
      if called.None? {
        assert EmbedBatches(bs, embed).None?;
        r := Failure(EmbedderFailed);
        return;
      }
      batchVectors := called;
      FlattenSnoc(bs[..j], batch);
      FlattenSnoc(results, called.value);
      assert bs[..j + 1] == bs[..j] + [batch];
      docs := docs + batch;
      vectors := vectors + called.value;
      results := results + [called.value];
      j := j + 1;
      i := i + BatchSize;
      LoopGuard(chunks, j);
    }
    assert j == |bs|;
    assert bs[..j] == bs;
    BatchesFlatten(chunks, BatchSize);
    EmbeddedResults(bs, embed, results);
    AsWrittenOutcome(chunks, embed, results);
    if batchVectors.None? {
      r := Failure(BatchVectorsUnbound);
    } else {
      r := FromEmbeddings(Zip(docs, batchVectors.value));
    }
  }

  /** `create_embeddings_from_pdf` end to end: extract the page text, split
      it with the opaque splitter, then batch, embed and pair. */
  function CreateEmbeddingsFromPdf<V>(pages: seq<PdfText.Page>, split: string -> seq<string>, embed: seq<string> -> Option<seq<V>>)
    : (r: Result<Retriever<string, V>, BuildError>)
    ensures r.Success? ==> r.value.k == NeighbourCount && 0 < |r.value.pairs| <= |split(PdfText.ExtractPdfText(pages))|
    ensures split(PdfText.ExtractPdfText(pages)) == [] ==> r == Failure(BatchVectorsUnbound)
    ensures EmbedBatches(Batches(split(PdfText.ExtractPdfText(pages)), BatchSize), embed).None? ==> r == Failure(EmbedderFailed)
  {
    CreateEmbeddings(split(PdfText.ExtractPdfText(pages)), embed)
  }

  /** A PDF none of whose pages yields text splits into no chunks (the
      splitter returns no chunks for ""), so `batch_vectors` is never bound
      and ingestion fails; the embedder is never called. */
  lemma TextlessPdfFails<V>(pages: seq<PdfText.Page>, split: string -> seq<string>, embed: seq<string> -> Option<seq<V>>)
    requires forall i :: 0 <= i < |pages| ==> !PdfText.HasText(pages[i])
    requires split("") == []
    ensures CreateEmbeddingsFromPdf(pages, split, embed) == Failure(BatchVectorsUnbound)
  {
  }

  /** Ingesting a PDF is the batching pipeline applied to the splitter's
      chunks of the non-empty page texts, in page order and each
      newline-terminated. */
  lemma PdfIngestIsBatching<V>(pages: seq<PdfText.Page>, split: string -> seq<string>,
                               embed: seq<string> -> Option<seq<V>>)
    ensures CreateEmbeddingsFromPdf(pages, split, embed)
         == CreateEmbeddings(split(PdfText.Terminated(PdfText.Kept(pages))), embed)
  {
    PdfText.ExtractIsTerminatedKept(pages);
  }

  /** With a well-behaved embedder, the index built from a PDF receives the
      last batch's pairing described by `AsWrittenPairs`. */
  lemma PdfIngestPairs<V>(pages: seq<PdfText.Page>, split: string -> seq<string>,
                          embed: seq<string> -> Option<seq<V>>, f: string -> V, chunks: seq<string>)
    requires chunks == split(PdfText.Terminated(PdfText.Kept(pages)))
    requires OnePerInput(embed, f)
    requires |chunks| > 0
    ensures var r := CreateEmbeddingsFromPdf(pages, split, embed);
      var last := BatchSize * (CeilDiv(|chunks|, BatchSize) - 1);
      && r.Success?
      && |r.value.pairs| == |chunks| - last
      && forall i :: 0 <= i < |r.value.pairs| ==> r.value.pairs[i] == (chunks[i], f(chunks[last + i]))
  {
    PdfIngestIsBatching(pages, split, embed);
    AsWrittenPairs(chunks, embed, f);
  }
}

=== FILE: pdf_text.dfy ===
/** Page-text concatenation of a PDF (`extract_pdf_text`).

    The PDF reader is not modelled: a document is the sequence of what each
    page's text extraction returned, `None` or a string. A page contributes
    only when its text is truthy (present and non-empty); then it contributes
    its text followed by one newline. */
module PdfText {
  import opened Wrappers

  type Page = Option<string>

  /** Python truthiness of the extracted page text. */
  predicate HasText(page: Page) {
    page.Some? && page.value != ""
  }

  /** What the loop appends for one page. */
  function PageContribution(page: Page): string {
    if HasText(page) then page.value + "\n" else ""
  }

  /** The loop of `extract_pdf_text`: pages folded left to right onto "". */
  function ExtractPdfText(pages: seq<Page>): (text: string)
    ensures text == "" <==> forall i :: 0 <= i < |pages| ==> !HasText(pages[i])
    ensures text != "" ==> text[|text| - 1] == '\n'
  {
    if |pages| == 0 then ""
    else ExtractPdfText(pages[..|pages| - 1]) + PageContribution(pages[|pages| - 1])
  }

  /** Reference definition, part one: the texts of the pages that have text,
      in page order. */
  function Kept(pages: seq<Page>): (texts: seq<string>)
    ensures |texts| <= |pages|
    ensures forall j :: 0 <= j < |texts| ==> texts[j] != ""
  {
    if |pages| == 0 then []
    else (if HasText(pages[0]) then [pages[0].value] else []) + Kept(pages[1..])
  }

  /** Reference definition, part two: every text followed by exactly one
      newline, in order. */
  function Terminated(texts: seq<string>): string {
    if |texts| == 0 then "" else texts[0] + "\n" + Terminated(texts[1..])
  }

  /** Sum over the texts of (length + 1). */
  function Footprint(texts: seq<string>): nat {
    if |texts| == 0 then 0 else |texts[0]| + 1 + Footprint(texts[1..])
  }

  /** Where the `j`-th text starts in `Terminated(texts)`. */
  function Offset(texts: seq<string>, j: nat): nat
    requires j <= |texts|
  {
    if j == 0 then 0 else |texts[0]| + 1 + Offset(texts[1..], j - 1)
  }

  lemma {:induction false} ExtractAppend(a: seq<Page>, b: seq<Page>)
    ensures ExtractPdfText(a + b) == ExtractPdfText(a) + ExtractPdfText(b)
    decreases |b|
  {
    if |b| == 0 {
      assert a + b == a;
    } else {
      var b' := b[..|b| - 1];
      var last := b[|b| - 1];
      assert (a + b)[..|a + b| - 1] == a + b';
      assert (a + b)[|a + b| - 1] == last;
      ExtractAppend(a, b');
      calc {
        ExtractPdfText(a + b);
        ExtractPdfText(a + b') + PageContribution(last);
        ExtractPdfText(a) + ExtractPdfText(b') + PageContribution(last);
        ExtractPdfText(a) + (ExtractPdfText(b') + PageContribution(last));
        ExtractPdfText(a) + ExtractPdfText(b);
      }
    }
  }

  /** The left-to-right loop computes the reference definition: the
      non-empty page texts, in page order, each followed by one newline. */
  lemma {:induction false} ExtractIsTerminatedKept(pages: seq<Page>)
    ensures ExtractPdfText(pages) == Terminated(Kept(pages))
    decreases |pages|
  {
    if |pages| != 0 {
      var first := [pages[0]];
      assert pages == first + pages[1..];
      ExtractAppend(first, pages[1..]);
      assert first[..0] == [];
      assert ExtractPdfText(first) == PageContribution(pages[0]);
      ExtractIsTerminatedKept(pages[1..]);
      if HasText(pages[0]) {
        var texts := Kept(pages);
        assert texts == [pages[0].value] + Kept(pages[1..]);
        assert texts[1..] == Kept(pages[1..]);
      } else {
        assert Kept(pages) == Kept(pages[1..]);
      }
    }
  }

  lemma {:induction false} TerminatedLength(texts: seq<string>)
    ensures |Terminated(texts)| == Footprint(texts)
    decreases |texts|
  {
    if |texts| != 0 {
      TerminatedLength(texts[1..]);
    }
  }

  /** The extracted text is as long as the sum of (length + 1) over the
      pages that have text. */
  lemma ExtractLength(pages: seq<Page>)
    ensures |ExtractPdfText(pages)| == Footprint(Kept(pages))
  {
    ExtractIsTerminatedKept(pages);
    TerminatedLength(Kept(pages));
  }

  lemma {:induction false} OffsetBound(texts: seq<string>, j: nat)
    requires j < |texts|
    ensures Offset(texts, j) + |texts[j]| + 1 <= |Terminated(texts)|
    decreases j
  {
    TerminatedLength(texts);
    if j != 0 {
      OffsetBound(texts[1..], j - 1);
    }
  }

  /** Each text sits at its offset in the concatenation, immediately
      followed by a newline. */
  lemma {:induction false} TerminatedPlacement(texts: seq<string>, j: nat)
    requires j < |texts|
    ensures Offset(texts, j) + |texts[j]| < |Terminated(texts)|
    ensures Terminated(texts)[Offset(texts, j)..Offset(texts, j) + |texts[j]|] == texts[j]
    ensures Terminated(texts)[Offset(texts, j) + |texts[j]|] == '\n'
    decreases j
  {
    OffsetBound(texts, j);
    var whole := Terminated(texts);
    var head := texts[0] + "\n";
    assert whole == head + Terminated(texts[1..]);
    if j == 0 {
      assert whole[..|texts[0]|] == texts[0];
      assert whole[|texts[0]|] == '\n';
    } else {
      TerminatedPlacement(texts[1..], j - 1);
      var rest := Terminated(texts[1..]);
      var o := Offset(texts[1..], j - 1);
      assert whole[|head| + o..|head| + o + |texts[j]|] == rest[o..o + |texts[j]|];
      assert whole[|head| + o + |texts[j]|] == rest[o + |texts[j]|];
    }
  }

  /** The Python loop, statement for statement. */
  method ExtractPdfTextLoop(pages: seq<Page>) returns (text: string)
    ensures text == Terminated(Kept(pages))
    ensures text == "" <==> |Kept(pages)| == 0
  {
    text := "";
    var i := 0;
    while i < |pages|
      invariant 0 <= i <= |pages|
      invariant text == ExtractPdfText(pages[..i])
    {
      var pageText := pages[i];
      if pageText.Some? && pageText.value != "" {
        text := text + pageText.value + "\n";
      }
      assert pages[..i + 1][..i] == pages[..i];
      i := i + 1;
    }
    assert pages[..i] == pages;
    ExtractIsTerminatedKept(pages);
    TerminatedLength(Kept(pages));
    if |Kept(pages)| != 0 {
      assert Kept(pages)[0] != "";
    }
  }
}

=== FILE: wrappers.dfy ===
/** Failure-carrying datatypes shared by the other modules: `Option` for a
    value that may be absent (a page without text, an embedder call that
    raised) and `Result` for an operation that either succeeds or fails with
    an error value (the exceptions of the service). */
module Wrappers {

  datatype Option<+T> = None | Some(value: T)

  datatype Result<+R, +E> = Success(value: R) | Failure(error: E)
}
